=== FILE: README.md ===
# free-tunnel client core in Dafny

free-tunnel is a reverse-tunnel client. The command line (`src/cli.ts`) turns a
public host or WebSocket URL into server URL candidates, a subdomain and a local
target URL. The client (`src/client.ts`) then does the following:

- It connects to the tunnel server over a WebSocket, with `subdomain` and `token`
  query parameters.
- It replays every tunnelled `request` frame against the local HTTP target and sends
  back a correlated `response` frame.
- It pings the socket every 30 seconds.
- When the socket closes, it either exits with a code that names a fatal server
  rejection or reconnects after two seconds.

The project models that decision logic as pure functions over immutable datatypes.

| file | module | what it models |
|---|---|---|
| `optional.dfy` | `Optional` | absent values, and JavaScript truthiness of an optional string |
| `text.dfy` | `Text` | the JavaScript string operations the code uses: `trim`, `split`, `filter(Boolean)`, `includes`, one trailing `/` removed, case-insensitive scheme tests |
| `base64.dfy` | `Base64` | base64 encoding of bytes and strict decoding (RFC 4648, section 4), with both round trips |
| `urls.dfy` | `Urls` | the parsed-URL accessors the client reads, and `URLSearchParams.set` |
| `client.dfy` | `Client` | `forwardRequest`, the inbound frame filter, the close-reason classifier and the connect URL of `startClient` |
| `lifecycle.dfy` | `Lifecycle` | the connect, close, reconnect and heartbeat loop of `startClient`, as a state machine driven by events |
| `cli.dfy` | `Cli` | the `.action` callback: subdomain inference, candidate URLs, the exit-1 check, the local target, and the hand-over to `startClient` |

The environment is passed in as values:

- **URL parsing.** WHATWG parsing (`new URL(text)`) is a function `string -> Option<Url>`
  handed in by the caller. None stands for "the constructor throws". The only fact the
  proofs assume about it is `Urls.SchemeRequired`: parsing without a base fails on
  text that has no `:`.
- **The HTTP call.** What the local target does is an `Upstream` value:
  - it answered, with an optional status code, its headers and the concatenated body
    bytes;
  - or the request emitted `error`.
- **Inbound frames.** A frame is either unparseable JSON or a parsed value with its
  `type` tag.
- **Exits.** `process.exit(code)` becomes a returned `Exit(code)`.

## Model

| member | source | states |
|---|---|---|
| `Client.OutboundPort` | src/client.ts:43 | the port is the URL's own port text when it has one; otherwise 443 exactly for `https:` and 80 for anything else |
| `Client.OutboundPath` | src/client.ts:45 | the path ends with the request path; what precedes it is the base pathname, shortened by one `/` exactly when the pathname ends with one |
| `Client.EmptyPathKeepsBase` | src/client.ts:45 | an empty request path on a base without a trailing slash forwards to exactly the base path (`/api` stays `/api`) |
| `Client.OutboundHeaders` | src/client.ts:36-38 | the outbound headers are the request's headers (absent means none) with `host` set to the target's `host`; no other header is added, removed or changed |
| `Client.BuildOptions` | src/client.ts:40-47 | the request options take protocol and hostname from the target and the method from the message, with the port, path and headers described above |
| `Client.BodyToWrite` | src/client.ts:70 | a request body is written exactly when `bodyBase64` is a non-empty string, and what is decoded and written is that string |
| `Client.UpstreamErrorBody` | src/client.ts:67 | the error body decodes to the bytes of `{"error":"Upstream error"}` |
| `Client.Respond` | src/client.ts:52-67 | the response id is the request id on both paths. On error: status 502, headers exactly `content-type: application/json`, and the error body. On success: the upstream headers; the upstream status, or 200 when it is missing or 0; no body exactly when the upstream body is empty, otherwise a body that decodes back to the upstream bytes |
| `Client.Forward` | src/client.ts:30-72 | `forwardRequest` rejects exactly when `lib.request` throws on the options (`Client.RequestBuilds` fails). Otherwise it resolves with the request's id: it uses `https` exactly for the `https:` protocol, builds the options above, writes a body exactly for a non-empty `bodyBase64`, and the text it decodes and writes is `bodyBase64` itself (`Client.BodyToWrite`), and answers with the response above |
| `Client.Dispatch` | src/client.ts:89-99 | a frame is forwarded and answered exactly when it parsed, its `type` is `'request'`, the target URL parses and `lib.request` accepts the options; the reply carries the frame's id; every other frame is dropped without a reply, because the rejected promise is swallowed by the `catch` |
| `Client.ForeignSchemeDropsRequests` | src/client.ts:32-49 | a target whose scheme is neither `http:` nor `https:` (`--to localhost:3000` parses with the scheme `localhost:`) drops every request without a reply |
| `Client.UnescapedPathDropsRequest` | src/client.ts:45-49 | a request path holding a space, a C0 control character (below U+0021) or a character above U+00FF is dropped without a reply; DEL and the C1 controls pass Node's check |
| `Client.PlainRequestIsAnswered` | src/client.ts:32-49 | a headerless request with a token method and a sendable path, sent to an `http:` or `https:` target whose path and host are sendable, is always answered |
| `Client.ClassifyClose` | src/client.ts:101-117 | the reason (absent means empty) exits with 2 iff it contains the in-use phrase, with 3 iff it contains the rejected phrase but not that one, and with 4 iff it contains only the auth phrase. It reconnects after 2000 ms iff it contains none of the three |
| `Client.NoReasonReconnects` | src/client.ts:102 | a close with no reason or an empty reason reconnects after 2000 ms |
| `Client.FirstFatalPhraseWins` | src/client.ts:103-114 | the phrases are tested in order: a reason naming both an auth failure and a taken subdomain exits with 2, not 4 |
| `Client.ConnectUrl` | src/client.ts:77-78 | the connect URL differs from the server URL only in its query. `subdomain` has exactly the one configured value. `token` has exactly the configured value when that is non-empty and is untouched otherwise. Every other parameter keeps its values |
| `Client.ConnectUrlKeepsAcceptance` | src/client.ts:77-83 | setting the query parameters never changes whether the `ws` constructor accepts the URL: scheme, path and fragment are kept |
| `Client.StartClient` | src/client.ts:75-83 | the client opens its first socket iff `new URL(cfg.serverWsUrl)` succeeds, where an absent value is parsed as the text `undefined`, and the `ws` constructor accepts the result (a `ws:`, `wss:`, `http:` or `https:` scheme, or `ws+unix:` with a path, and no fragment); it connects to the connect URL built from that parse |
| `Urls.Set` | src/client.ts:77-78 | after `searchParams.set(name, value)`, `name` has exactly the one value; the pairs under other names, and their order, are unchanged |
| `Urls.SetPosition` | src/client.ts:77-78 | `set` replaces the first pair named `name` in place and drops the later ones; it appends the pair when there was none |
| `Urls.SetSkipsPrefix` | src/client.ts:77-78 | pairs before the first pair named `name` keep their place |
| `Urls.SetAppends` | src/client.ts:77-78 | when no pair is named `name`, `set` appends exactly one pair at the end |
| `Urls.SetIdempotent` | src/client.ts:77-78 | setting the same parameter twice gives the same query as setting it once |
| `Base64.Encode` | src/client.ts:61 | base64 text has length `4 * ceil(n / 3)` and is empty exactly for no bytes |
| `Base64.DecodeEncode` | src/client.ts:61 | decoding the encoding of any byte sequence gives back exactly those bytes |
| `Base64.EncodeDecode` | src/client.ts:61-67 | every text that decodes is the encoding of what it decodes to, so the strict decoder accepts only canonical text |
| `Base64.EncodeInjective` | src/client.ts:61 | different bodies get different base64 texts |
| `Lifecycle.Beat` | src/client.ts:123-130 | a heartbeat tick pings iff the socket it inspects is open; otherwise it clears its own interval and changes nothing else |
| `Lifecycle.Step` | src/client.ts:82-131 | every event keeps the state well formed: one interval per connection, every socket but the newest closed, a pending reconnect only after the newest socket closed, and an exit only with code 2, 3 or 4 |
| `Lifecycle.Run` | src/client.ts:133 | a run of events from a well-formed state ends in a well-formed state |
| `Lifecycle.ExitIsFinal` | src/client.ts:103-114 | once the process has exited, no later event changes anything or pings any socket |
| `Lifecycle.ExitOnlyOnFatalClose` | src/client.ts:101-114 | the process exits only on a close whose reason the classifier maps to that exit code |
| `Lifecycle.FatalCloseExits` | src/client.ts:101-114 | a live socket that closes with a reason naming a taken subdomain, a rejected subdomain or an auth failure exits the process with 2, 3 or 4: the socket is closed, no reconnect is scheduled, no interval changes and nothing is pinged |
| `Lifecycle.ReconnectAfterOtherClose` | src/client.ts:115-116 | any other close of a live socket schedules a reconnect, however many reconnects came before; the timer then opens a fresh socket with its own heartbeat |
| `Lifecycle.StaleBeatPingsCurrentSocket` | src/client.ts:124-126 | as written: the interval of a replaced socket pings the newest socket whenever that one is open |
| `Lifecycle.HeartbeatLeakExample` | src/client.ts:82-133 | as written: connect, open, drop with no reason, reconnect, open. The first interval is still running and pings the second socket; with each interval watching its own socket, it stops instead |
| `Lifecycle.StaleBeatStops` | src/client.ts:124-129 | corrected: the first tick of the interval of a replaced socket clears it without pinging |
| `Lifecycle.OwnSocketPingsOnlyCurrent` | src/client.ts:124-126 | corrected: a ping only ever goes to the newest socket, from that socket's own interval |
| `Text.Trim` | src/cli.ts:34 | `trim()` returns a contiguous piece of its input that neither starts nor ends with JavaScript white space |
| `Text.TrimIdempotent` | src/cli.ts:58 | trimming twice is trimming once |
| `Text.DropTrailingSlash` | src/cli.ts:38 | `replace(/\/$/, '')` removes one `/` exactly when the text ends with one, and changes nothing else |
| `Text.Split` | src/cli.ts:22-23 | `split(sep)` gives at least one piece; no piece contains the separator, and every character of a piece comes from the input |
| `Text.JoinSplit` | src/cli.ts:22-23 | joining the pieces of a split with the separator gives back the input |
| `Text.SplitJoin` | src/cli.ts:22-23 | splitting a join of separator-free pieces gives back those pieces |
| `Text.SplitHead` | src/cli.ts:22 | the first piece is the input up to its first separator; there are more pieces exactly when a separator follows it |
| `Text.NonEmpty` | src/cli.ts:23 | `filter(Boolean)` keeps exactly the non-empty pieces, each as often as it occurs (the multiset of the input without `""`) |
| `Text.NonEmptyAppend` | src/cli.ts:23 | `filter(Boolean)` keeps the order: filtering a concatenation is concatenating the filtered parts |
| `Text.FirstLabelPosition` | src/cli.ts:23-24 | when there are at least two non-empty labels, the first one starts after nothing but separators and is followed by a separator |
| `Text.Includes` | src/client.ts:103 | `includes` is true iff the phrase occurs at some position of the text |
| `Text.PrefixIsFolded` | src/cli.ts:59 | a lower-case scheme put in front of any text passes the case-insensitive scheme test |
| `Cli.HostPart` | src/cli.ts:22 | `host.split(':')[0]` is the prefix of the host before its first `:`, and contains no `:` |
| `Cli.InferSubdomainFromHost` | src/cli.ts:21-26 | a subdomain is found iff the host part has at least three non-empty labels; it is the first of them, non-empty, with no `.` and no `:` |
| `Cli.SubdomainIsLeadingLabel` | src/cli.ts:22-24 | the inferred subdomain is the leading label of the host part: only dots come before it, and a dot follows it |
| `Cli.DeriveCandidates` | src/cli.ts:29-44 | `--server-ws-url` wins and is the single candidate. Otherwise a `ws://` or `wss://` argument, trimmed, is the single candidate. Otherwise, with the trimmed argument minus one trailing `/` as host, the candidates are `wss://host/ws` then `ws://host/ws`. The host for inference follows the same three branches |
| `Cli.CandidatesAreWebSocketUrls` | src/cli.ts:34-43 | without `--server-ws-url`, every candidate is a WebSocket URL, and two candidates are the secure and the plain variant of one address, secure first |
| `Cli.TargetFromArg` | src/cli.ts:58-59 | the positional target is trimmed and gets `http://` in front exactly when it does not already start with `http://` or `https://` in any letter case; the result always does |
| `Cli.TargetFromArgIdempotent` | src/cli.ts:58-59 | normalising an already normalised target changes nothing |
| `Cli.LocalTarget` | src/cli.ts:54-62 | `--to` is used verbatim; otherwise the normalised positional target; otherwise `proto://host:port` from the `--to-*` options |
| `Cli.Run` | src/cli.ts:46-73 | the callback either exits with 1, or starts with the derived candidates and the subdomain inferred from the derived host, which is neither empty nor `unknown`, the token only when it is non-empty, and the local target |
| `Cli.ExitWhenNoSubdomain` | src/cli.ts:47-51 | exit 1 happens iff there is no host to infer from, the host has fewer than three labels, or its first label is literally `unknown` |
| `Cli.HandoffAsWritten` | src/cli.ts:69-74 | as written: the object handed to `startClient` names its URLs `serverWsUrls`, so the client sees no `serverWsUrl` |
| `Cli.HandoffAsWrittenNeverConnects` | src/cli.ts:69-74 | as written: `startClient` then parses the text `undefined`, which has no scheme, so it throws and never connects |
| `Cli.Handoff` | src/cli.ts:69-74 | corrected: the client is handed the first candidate, the secure one when there are two, with the same subdomain, token and target |
| `Cli.HandoffConnectsToFirstCandidate` | src/cli.ts:69-74 | corrected: a run that did not exit connects iff its first candidate parses to a URL the `ws` constructor accepts. The parse always succeeds when the subdomain was read from that very URL. The connect URL then carries the inferred subdomain |

## Left out

- The candidate walk: trying `ws://` after `wss://` fails, and exit 2 once every
  candidate has failed. The code does not implement them: `startClient` reads a
  single `serverWsUrl`.
- Client.Forward: takes the outcome of the HTTP call as given. There is no
  timeout, so a target that accepts the connection and never answers, or never
  ends its response, leaves the promise pending for ever and no reply is sent;
  the model does not state that case.
- Client.RequestBuilds: restates the synchronous checks of Node's `http` module
  (protocol, method token, unescaped path characters, header names and values) as
  they stand in current Node releases. Node's own code is not part of this model,
  and its later, asynchronous failures (DNS, connection refused) are the `Failed`
  upstream outcome.
- Client.WebSocketAccepts: restates the URL checks of the `ws` package's client
  constructor as of its version 8; the package's code is not part of this model.
  Every reconnect uses the same URL, so the first attempt decides them all.
- The HTTP request itself: response streaming, chunk concatenation and socket
  errors are I/O. They enter as the abstract `Upstream` value.
- Client.BodyToWrite: keeps the base64 text whose decoding is written, and does not
  decode it. Node's decoder is lenient: it skips invalid characters and accepts
  missing padding. The round trips are proved for the strict decoder
  (`Base64.Decode`) only.
- WebSocket transport: `ws.send` and the `open` and `error` logging are transport
  I/O. Lifecycle models open and close as events and the socket's ready state.
- Timing: the 30-second interval and the two-second delay. Lifecycle models ticks
  and the reconnect timer as events, in any order.
- Concurrency: in-flight forwarded requests of the async message handler interleave
  on the event loop. Each forward is modelled as a single step.
- JSON parsing and serialisation: a frame is either unparseable or a parsed value
  with a `type` tag. Ill-typed fields of a `request` frame, such as a non-string
  `path`, are not modelled.
- WHATWG URL parsing and serialisation: only the accessors the code reads are
  modelled (`protocol`, `hostname`, `port`, `host`, `pathname`, `hash`, the query pairs), and
  parsing is a parameter.
- Client.OutboundHeaders: states the header map as the client builds it. Node's
  `setHeader` treats header names case-insensitively, so a request header `Host`
  and the `host` set by the client become one header on the wire, and the model
  does not say which one wins.
- Console logging, the `commander` and `dotenv` option plumbing, and the environment
  defaults: the callback receives the options with their values already filled in.
- `process.exit`: modelled as a returned exit code.

## Findings

| source | as written | input that shows it | evidently intended | confidence | as-written member | corrected member |
|---|---|---|---|---|---|---|
| src/cli.ts:69-74 | the configuration passed to `startClient` has the property `serverWsUrls` (cast with `as any`), while `startClient` reads `cfg.serverWsUrl` (src/client.ts:76), so it runs `new URL(undefined)` and throws | `free-tunnel myapp.example.com`: candidates `wss://myapp.example.com/ws`, `ws://myapp.example.com/ws`, subdomain `myapp`; `startClient` throws before connecting | connect to the first candidate, `wss://myapp.example.com/ws?subdomain=myapp` | high; not executed | `Cli.HandoffAsWrittenNeverConnects` | `Cli.HandoffConnectsToFirstCandidate` |
| src/client.ts:124-130 | each heartbeat interval tests and pings the shared `ws` variable, which after a reconnect holds the newest socket, so the interval of a dropped connection never stops while the new one is open | open, close with no reason, reconnect, open, then the first interval ticks: it pings the second socket and keeps running, and one more interval leaks per reconnect | each interval watches the socket it was started for, and stops once that socket is no longer open | medium; not executed | `Lifecycle.HeartbeatLeakExample` | `Lifecycle.StaleBeatStops` |

=== FILE: base64.dfy ===
/** The base64 encoding of section 4 of RFC 4648 (alphabet `A-Z a-z 0-9 + /`,
    `=` padding), as produced by Node's `Buffer#toString('base64')`, together with
    a strict decoder that accepts exactly the canonical encodings. */
module Base64 {
  import opened Optional

  type Byte = b: int | 0 <= b < 256
  type Sextet = x: int | 0 <= x < 64

  predicate IsAlphabet(c: char)
  {
    ('A' <= c <= 'Z') || ('a' <= c <= 'z') || ('0' <= c <= '9') || c == '+' || c == '/'
  }

  /** The alphabet character for a six-bit value. */
  function CharOf(x: Sextet): (c: char)
    ensures IsAlphabet(c) && ValueOf(c) == x
  {
    if x < 26 then ('A' as int + x) as char
    else if x < 52 then ('a' as int + (x - 26)) as char
    else if x < 62 then ('0' as int + (x - 52)) as char
    else if x == 62 then '+'
    else '/'
  }

  /** The six-bit value of an alphabet character. */
  function ValueOf(c: char): Sextet
    requires IsAlphabet(c)
  {
    if 'A' <= c <= 'Z' then c as int - 'A' as int
    else if 'a' <= c <= 'z' then c as int - 'a' as int + 26
    else if '0' <= c <= '9' then c as int - '0' as int + 52
    else if c == '+' then 62
    else 63
  }

  /** Each character has its own value. */
  lemma CharOfValueOf(c: char)
    requires IsAlphabet(c)
    ensures CharOf(ValueOf(c)) == c
  {
  }

  /** Three bytes become four characters, most significant bits first. */
  function EncodeGroup(a: Byte, b: Byte, c: Byte): string
  {
    [CharOf(a / 4), CharOf((a % 4) * 16 + b / 16), CharOf((b % 16) * 4 + c / 64), CharOf(c % 64)]
  }

  /** `Buffer.from(bytes).toString('base64')`. */
  function Encode(bytes: seq<Byte>): (s: string)
    ensures |s| == 4 * ((|bytes| + 2) / 3)
    ensures |bytes| == 0 <==> s == ""
    decreases |bytes|
  {
    if |bytes| == 0 then ""
    else if |bytes| == 1 then
      [CharOf(bytes[0] / 4), CharOf((bytes[0] % 4) * 16), '=', '=']
    else if |bytes| == 2 then
      [CharOf(bytes[0] / 4), CharOf((bytes[0] % 4) * 16 + bytes[1] / 16), CharOf((bytes[1] % 16) * 4), '=']
    else
      EncodeGroup(bytes[0], bytes[1], bytes[2]) + Encode(bytes[3..])
  }

  /** Four alphabet characters back to three bytes. */
  function DecodeFull(q: string): Option<seq<Byte>>
    requires |q| == 4
  {
    if IsAlphabet(q[0]) && IsAlphabet(q[1]) && IsAlphabet(q[2]) && IsAlphabet(q[3]) then
      var s0: int, s1: int, s2: int, s3: int := ValueOf(q[0]), ValueOf(q[1]), ValueOf(q[2]), ValueOf(q[3]);
      Some([s0 * 4 + s1 / 16, (s1 % 16) * 16 + s2 / 4, (s2 % 4) * 64 + s3])
    else
      None
  }

  /** The final group: four alphabet characters, or one or two `=` of padding whose
      unused low bits must be zero. */
  function DecodeFinal(q: string): Option<seq<Byte>>
    requires |q| == 4
  {
    if q[2] == '=' && q[3] == '=' then
      if IsAlphabet(q[0]) && IsAlphabet(q[1]) && ValueOf(q[1]) % 16 == 0 then
        Some([ValueOf(q[0]) * 4 + ValueOf(q[1]) / 16])
      else None
    else if q[3] == '=' then
      if IsAlphabet(q[0]) && IsAlphabet(q[1]) && IsAlphabet(q[2]) && ValueOf(q[2]) % 4 == 0 then
        var s0, s1, s2 := ValueOf(q[0]), ValueOf(q[1]), ValueOf(q[2]);
        Some([s0 * 4 + s1 / 16, (s1 % 16) * 16 + s2 / 4])
      else None
    else
      DecodeFull(q)
  }

  /** Strict decoding: None for anything that is not a canonical encoding. */
  function Decode(s: string): Option<seq<Byte>>
    decreases |s|
  {
    if |s| == 0 then Some([])
    else if |s| < 4 then None
    else if |s| == 4 then DecodeFinal(s)
    else
      match DecodeFull(s[..4])
      case None => None
      case Some(g) =>
        match Decode(s[4..])
        case None => None
        case Some(rest) => Some(g + rest)
  }

  /** Quotient and remainder by the three powers of two the codec shifts by. */
  lemma DivMod4(x: int, q: int, r: int)
    requires 0 <= r < 4 && x == 4 * q + r
    ensures x / 4 == q && x % 4 == r
  {
  }

  lemma DivMod16(x: int, q: int, r: int)
    requires 0 <= r < 16 && x == 16 * q + r
    ensures x / 16 == q && x % 16 == r
  {
  }

  lemma DivMod64(x: int, q: int, r: int)
    requires 0 <= r < 64 && x == 64 * q + r
    ensures x / 64 == q && x % 64 == r
  {
  }

  /** Splitting three bytes into sextets and joining them again is the identity. */
  lemma BytesToSextets(a: Byte, b: Byte, c: Byte)
    ensures (a / 4) * 4 + ((a % 4) * 16 + b / 16) / 16 == a
    ensures (((a % 4) * 16 + b / 16) % 16) * 16 + ((b % 16) * 4 + c / 64) / 4 == b
    ensures (((b % 16) * 4 + c / 64) % 4) * 64 + c % 64 == c
  {
    DivMod16((a % 4) * 16 + b / 16, a % 4, b / 16);
    DivMod4((b % 16) * 4 + c / 64, b % 16, c / 64);
  }

  /** Joining four sextets into bytes and splitting them again is the identity. */
  lemma SextetsToBytes(s0: Sextet, s1: Sextet, s2: Sextet, s3: Sextet)
    ensures var a, b, c := s0 * 4 + s1 / 16, (s1 % 16) * 16 + s2 / 4, (s2 % 4) * 64 + s3;
      && a / 4 == s0 && (a % 4) * 16 + b / 16 == s1
      && (b % 16) * 4 + c / 64 == s2 && c % 64 == s3
  {
    DivMod4(s0 * 4 + s1 / 16, s0, s1 / 16);
    DivMod16((s1 % 16) * 16 + s2 / 4, s1 % 16, s2 / 4);
    DivMod64((s2 % 4) * 64 + s3, s2 % 4, s3);
  }

  lemma GroupRoundTrip(a: Byte, b: Byte, c: Byte)
    ensures DecodeFull(EncodeGroup(a, b, c)) == Some([a, b, c])
  {
    BytesToSextets(a, b, c);
  }

  /** One byte encodes to two characters and `==`, and decodes back. */
  lemma DecodeEncodeOne(a: Byte)
    ensures Decode(Encode([a])) == Some([a])
  {
    var q := Encode([a]);
    BytesToSextets(a, 0, 0);
    DivMod16((a % 4) * 16, a % 4, 0);
    assert ValueOf(q[0]) == a / 4 && ValueOf(q[1]) == (a % 4) * 16;
    assert DecodeFinal(q) == Some([a]);
  }

  /** Two bytes encode to three characters and `=`, and decode back. */
  lemma DecodeEncodeTwo(a: Byte, b: Byte)
    ensures Decode(Encode([a, b])) == Some([a, b])
  {
    var q := Encode([a, b]);
    BytesToSextets(a, b, 0);
    DivMod4((b % 16) * 4, b % 16, 0);
    assert ValueOf(q[0]) == a / 4;
    assert ValueOf(q[1]) == (a % 4) * 16 + b / 16;
    assert ValueOf(q[2]) == (b % 16) * 4;
    assert q[2] != '=';
    assert DecodeFinal(q) == Some([a, b]);
  }

  /** Decoding an encoding gives the bytes back. */
  lemma {:induction false} DecodeEncode(bytes: seq<Byte>)
    ensures Decode(Encode(bytes)) == Some(bytes)
    decreases |bytes|
  {
    if |bytes| == 1 {
      DecodeEncodeOne(bytes[0]);
      assert [bytes[0]] == bytes;
    } else if |bytes| == 2 {
      DecodeEncodeTwo(bytes[0], bytes[1]);
      assert [bytes[0], bytes[1]] == bytes;
    } else if |bytes| >= 3 {
      var s := Encode(bytes);
      var g := EncodeGroup(bytes[0], bytes[1], bytes[2]);
      GroupRoundTrip(bytes[0], bytes[1], bytes[2]);
      DecodeEncode(bytes[3..]);
      assert s == g + Encode(bytes[3..]);
      if |bytes| == 3 {
        assert s == g;
        assert IsAlphabet(g[3]);
        assert DecodeFinal(s) == DecodeFull(g);
        assert [bytes[0], bytes[1], bytes[2]] == bytes;
      } else {
        assert s[..4] == g;
        assert s[4..] == Encode(bytes[3..]);
        assert [bytes[0], bytes[1], bytes[2]] + bytes[3..] == bytes;
      }
    }
  }

  /** The bytes of four sextets encode to those sextets' characters. */
  lemma SextetsRegroup(s0: Sextet, s1: Sextet, s2: Sextet, s3: Sextet, a: Byte, b: Byte, c: Byte)
    requires a == s0 * 4 + s1 / 16 && b == (s1 % 16) * 16 + s2 / 4 && c == (s2 % 4) * 64 + s3
    ensures EncodeGroup(a, b, c) == [CharOf(s0), CharOf(s1), CharOf(s2), CharOf(s3)]
  {
    SextetsToBytes(s0, s1, s2, s3);
    var x0: Sextet, x1: Sextet, x2: Sextet, x3: Sextet := a / 4, (a % 4) * 16 + b / 16, (b % 16) * 4 + c / 64, c % 64;
    assert x0 == s0 && x1 == s1 && x2 == s2 && x3 == s3;
    assert EncodeGroup(a, b, c) == [CharOf(x0), CharOf(x1), CharOf(x2), CharOf(x3)];
  }

  lemma SameGroup(g: seq<Byte>, a: Byte, b: Byte, c: Byte)
    requires g == [a, b, c]
    ensures EncodeGroup(g[0], g[1], g[2]) == EncodeGroup(a, b, c)
  {
  }

  /** A group of four alphabet characters decodes to bytes that encode back to it. */
  lemma FullGroupRoundTrip(q: string)
    requires |q| == 4 && DecodeFull(q).Some?
    ensures var g := DecodeFull(q).value; EncodeGroup(g[0], g[1], g[2]) == q
  {
    var g := DecodeFull(q).value;
    var s0: int, s1: int, s2: int, s3: int := ValueOf(q[0]), ValueOf(q[1]), ValueOf(q[2]), ValueOf(q[3]);
    var a: int, b: int, c: int := s0 * 4 + s1 / 16, (s1 % 16) * 16 + s2 / 4, (s2 % 4) * 64 + s3;
    assert g == [a, b, c];
    calc {
      EncodeGroup(g[0], g[1], g[2]);
      { SameGroup(g, a, b, c); }
      EncodeGroup(a, b, c);
      { SextetsRegroup(s0, s1, s2, s3, a, b, c); }
      [CharOf(s0), CharOf(s1), CharOf(s2), CharOf(s3)];
      { CharOfValueOf(q[0]); CharOfValueOf(q[1]); CharOfValueOf(q[2]); CharOfValueOf(q[3]); }
      [q[0], q[1], q[2], q[3]];
      q;
    }
  }

  /** Every string the decoder accepts is the encoding of what it decodes to,
      so the decoder accepts exactly the canonical encodings. */
  lemma {:induction false} EncodeDecode(s: string)
    requires Decode(s).Some?
    ensures Encode(Decode(s).value) == s
    decreases |s|
  {
    if |s| == 4 {
      if s[2] == '=' && s[3] == '=' {
        var s0: int, s1: int := ValueOf(s[0]), ValueOf(s[1]);
        SextetsToBytes(s0, s1, 0, 0);
        DivMod16(s1, s1 / 16, 0);
        CharOfValueOf(s[0]);
        CharOfValueOf(s[1]);
        var a: int := s0 * 4 + s1 / 16;
        assert Decode(s).value == [a];
        assert (a % 4) * 16 == s1;
        assert [s[0], s[1], s[2], s[3]] == s;
      } else if s[3] == '=' {
        var s0: int, s1: int, s2: int := ValueOf(s[0]), ValueOf(s[1]), ValueOf(s[2]);
        SextetsToBytes(s0, s1, s2, 0);
        DivMod4(s2, s2 / 4, 0);
        CharOfValueOf(s[0]);
        CharOfValueOf(s[1]);
        CharOfValueOf(s[2]);
        var a: int, b: int := s0 * 4 + s1 / 16, (s1 % 16) * 16 + s2 / 4;
        assert Decode(s).value == [a, b];
        assert (b % 16) * 4 == s2;
        assert [s[0], s[1], s[2], s[3]] == s;
      } else {
        FullGroupRoundTrip(s);
      }
    } else if |s| > 4 {
      var g := DecodeFull(s[..4]).value;
      var rest := Decode(s[4..]).value;
      FullGroupRoundTrip(s[..4]);
      EncodeDecode(s[4..]);
      var bytes := g + rest;
      assert bytes[3..] == rest;
      assert |rest| > 0;
      assert s == s[..4] + s[4..];
    }
  }

  /** Encoding is injective, so distinct bodies never share a base64 text. */
  lemma EncodeInjective(a: seq<Byte>, b: seq<Byte>)
    requires Encode(a) == Encode(b)
    ensures a == b
  {
    DecodeEncode(a);
    DecodeEncode(b);
  }
}

=== FILE: cli.dfy ===
/** The `.action` callback of the command line (`src/cli.ts`): from the positional
    server argument, the optional positional target and the options, it derives the
    server WebSocket URL candidates, the subdomain and the local target URL, or
    exits with code 1. Option parsing and environment defaults are done before it
    runs; `new URL(...)` is the parser handed in. */
module Cli {
  import opened Optional
  import opened Text
  import opened Urls
  import Client

  /** The options after commander and the environment have supplied their values. */
  datatype Options = Options(
    serverWsUrl: Option<string>,
    token: Option<string>,
    to: Option<string>,
    toHost: string,
    toPort: string,
    toProto: string)

  /** Either `process.exit(code)`, or the values handed to `startClient`. */
  datatype Outcome =
    | Exit(code: int)
    | Start(candidates: seq<string>, subdomain: string, token: Option<string>, toUrl: string)

  /** The host with everything from its first `:` removed. */
  function HostPart(host: string): (h: string)
    ensures ':' !in h
    ensures |h| <= |host| && host[..|h|] == h
    ensures |h| < |host| ==> host[|h|] == ':'
  {
    SplitHead(host, ':');
    Split(host, ':')[0]
  }

  /** The non-empty dot-separated labels of the host part. */
  function Labels(host: string): seq<string>
  {
    NonEmpty(Split(HostPart(host), '.'))
  }

  /** `inferSubdomainFromHost`: the first label when there are at least three. */
  function InferSubdomainFromHost(host: string): (r: Option<string>)
    ensures r.Some? <==> |Labels(host)| >= 3
    ensures r.Some? ==> r.value == Labels(host)[0]
    ensures r.Some? ==> r.value != "" && '.' !in r.value && ':' !in r.value
  {
    var labels := Labels(host);
    if |labels| >= 3 then
      assert labels[0] in Split(HostPart(host), '.');
      Some(labels[0])
    else None
  }

  /** The inferred subdomain is the leading label of the host: the host, up to its
      first `:`, starts with that label after nothing but dots, and a dot follows it. */
  lemma SubdomainIsLeadingLabel(host: string)
    requires InferSubdomainFromHost(host).Some?
    ensures exists k :: FirstLabelAt(HostPart(host), '.', InferSubdomainFromHost(host).value, k)
  {
    FirstLabelPosition(HostPart(host), '.');
  }

  /** `new URL(text).hostname` inside `try`: None when the constructor throws. */
  function HostnameOf(parse: Parser, text: string): Option<string>
  {
    match parse(text)
    case None => None
    case Some(u) => Some(u.hostname)
  }

  /** The candidate URLs and the host the subdomain is inferred from. */
  datatype Derivation = Derivation(candidates: seq<string>, hostForSub: Option<string>)

  /** The three-way candidate derivation: `--server-ws-url` verbatim; else a
      positional `ws://` or `wss://` URL, trimmed; else the trimmed host without one
      trailing slash, as `wss://host/ws` then `ws://host/ws`. */
  function DeriveCandidates(serverArg: string, opts: Options, parse: Parser): (d: Derivation)
    ensures 1 <= |d.candidates| <= 2
    ensures Truthy(opts.serverWsUrl) ==>
      && d.candidates == [opts.serverWsUrl.value]
      && d.hostForSub == HostnameOf(parse, opts.serverWsUrl.value)
    ensures !Truthy(opts.serverWsUrl) && IsWsUrl(Trim(serverArg)) ==>
      && d.candidates == [Trim(serverArg)]
      && d.hostForSub == HostnameOf(parse, Trim(serverArg))
    ensures !Truthy(opts.serverWsUrl) && !IsWsUrl(Trim(serverArg)) ==>
      var host := DropTrailingSlash(Trim(serverArg));
      && d.candidates == ["wss://" + host + "/ws", "ws://" + host + "/ws"]
      && d.hostForSub == Some(host)
  {
    if Truthy(opts.serverWsUrl) then
      Derivation([opts.serverWsUrl.value], HostnameOf(parse, opts.serverWsUrl.value))
    else if IsWsUrl(Trim(serverArg)) then
      Derivation([Trim(serverArg)], HostnameOf(parse, Trim(serverArg)))
    else
      var host := DropTrailingSlash(Trim(serverArg));
      Derivation(["wss://" + host + "/ws", "ws://" + host + "/ws"], Some(host))
  }

  /** Unless `--server-ws-url` overrides them, the candidates are WebSocket URLs,
      and two candidates are the secure and the plain variant of one address, the
      secure one first. */
  lemma CandidatesAreWebSocketUrls(serverArg: string, opts: Options, parse: Parser)
    requires !Truthy(opts.serverWsUrl)
    ensures forall c :: c in DeriveCandidates(serverArg, opts, parse).candidates ==> IsWsUrl(c)
    ensures var cs := DeriveCandidates(serverArg, opts, parse).candidates;
      |cs| == 2 ==> exists rest :: cs[0] == "wss://" + rest && cs[1] == "ws://" + rest
  {
    var cs := DeriveCandidates(serverArg, opts, parse).candidates;
    if !IsWsUrl(Trim(serverArg)) {
      var host := DropTrailingSlash(Trim(serverArg));
      var rest := host + "/ws";
      assert cs[0] == "wss://" + rest && cs[1] == "ws://" + rest;
      PrefixIsFolded("wss://", rest);
      PrefixIsFolded("ws://", rest);
    }
  }

  /** The subdomain: inferred from a non-empty host, `"unknown"` otherwise. */
  function SubdomainFor(hostForSub: Option<string>): string
  {
    if Truthy(hostForSub) then InferSubdomainFromHost(hostForSub.value).GetOr("unknown") else "unknown"
  }

  /** A positional target, trimmed, with `http://` put in front unless it already
      starts with `http://` or `https://` in any letter case. */
  function TargetFromArg(arg: string): (u: string)
    ensures IsHttpUrl(u)
    ensures u == Trim(arg) || u == "http://" + Trim(arg)
    ensures u == Trim(arg) <==> IsHttpUrl(Trim(arg))
  {
    var s := Trim(arg);
    if IsHttpUrl(s) then s
    else
      PrefixIsFolded("http://", s);
      "http://" + s
  }

  /** Normalising a target that is already normalised changes nothing. */
  lemma TargetFromArgIdempotent(arg: string)
    ensures TargetFromArg(TargetFromArg(arg)) == TargetFromArg(arg)
  {
    var s := Trim(arg);
    var u := TargetFromArg(arg);
    if u == s {
      TrimIdempotent(arg);
    } else {
      assert u == "http://" + s;
      assert u[0] == 'h';
      assert !IsJsSpace(u[|u| - 1]) by {
        if |s| > 0 { assert u[|u| - 1] == s[|s| - 1]; }
      }
      TrimOfTrimmed(u);
    }
  }

  /** The local target: `--to` verbatim; else the positional target normalised;
      else `proto://host:port` from the `--to-*` options. */
  function LocalTarget(toArg: Option<string>, opts: Options): (u: string)
    ensures Truthy(opts.to) ==> u == opts.to.value
    ensures !Truthy(opts.to) && Truthy(toArg) ==> u == TargetFromArg(toArg.value) && IsHttpUrl(u)
    ensures !Truthy(opts.to) && !Truthy(toArg) ==> u == opts.toProto + "://" + opts.toHost + ":" + opts.toPort
  {
    if Truthy(opts.to) then opts.to.value
    else if Truthy(toArg) then TargetFromArg(toArg.value)
    else opts.toProto + "://" + opts.toHost + ":" + opts.toPort
  }

  /** The `.action` callback: exit 1 when no usable subdomain is found, otherwise
      the candidates, the subdomain, the token (kept only when non-empty) and the
      local target. */
  function Run(serverArg: string, toArg: Option<string>, opts: Options, parse: Parser): (o: Outcome)
    ensures o.Exit? ==> o.code == 1
    ensures o.Start? ==>
      && o.candidates == DeriveCandidates(serverArg, opts, parse).candidates
      && o.subdomain != "" && o.subdomain != "unknown"
      && '.' !in o.subdomain && ':' !in o.subdomain
      && (o.token.Some? <==> Truthy(opts.token))
      && (o.token.Some? ==> o.token == opts.token)
      && o.toUrl == LocalTarget(toArg, opts)
    ensures o.Start? ==>
      var h := DeriveCandidates(serverArg, opts, parse).hostForSub;
      Truthy(h) && InferSubdomainFromHost(h.value) == Some(o.subdomain)
  {
    var d := DeriveCandidates(serverArg, opts, parse);
    var subdomain := SubdomainFor(d.hostForSub);
    if subdomain == "unknown" then Exit(1)
    else Start(d.candidates, subdomain, if Truthy(opts.token) then opts.token else None, LocalTarget(toArg, opts))
  }

  /** Exit code 1 exactly when there is no host to infer from, the host has fewer
      than three labels, or its first label is literally `unknown`. */
  lemma ExitWhenNoSubdomain(serverArg: string, toArg: Option<string>, opts: Options, parse: Parser)
    ensures var host := DeriveCandidates(serverArg, opts, parse).hostForSub;
      Run(serverArg, toArg, opts, parse).Exit? <==>
        || !Truthy(host)
        || InferSubdomainFromHost(host.value).None?
        || InferSubdomainFromHost(host.value) == Some("unknown")
  {
  }

  /** The configuration `.action` hands to `startClient`, as written: the property
      is called `serverWsUrls`, so the client's `cfg.serverWsUrl` is undefined. */
  function HandoffAsWritten(o: Outcome): (cfg: Client.ClientConfig)
    requires o.Start?
    ensures cfg.serverWsUrl.None? && cfg.subdomain == o.subdomain && cfg.to == o.toUrl
  {
    Client.ClientConfig(None, o.subdomain, o.token, o.toUrl)
  }

  /** As written, the client never connects: it parses the text "undefined", which
      has no scheme, so `new URL` throws before any socket is opened. */
  lemma HandoffAsWrittenNeverConnects(o: Outcome, parse: Parser)
    requires o.Start? && SchemeRequired(parse)
    ensures Client.StartClient(HandoffAsWritten(o), parse).None?
  {
    assert ':' !in Client.UrlArgument(None);
  }

  /** The evidently intended configuration: the client connects to the first
      candidate, the secure one when two were derived. */
  function Handoff(o: Outcome): (cfg: Client.ClientConfig)
    requires o.Start? && |o.candidates| >= 1
    ensures cfg.serverWsUrl == Some(o.candidates[0])
    ensures cfg.subdomain == o.subdomain && cfg.token == o.token && cfg.to == o.toUrl
  {
    Client.ClientConfig(Some(o.candidates[0]), o.subdomain, o.token, o.toUrl)
  }

  /** With the intended handoff, a run that did not exit connects exactly when its
      first candidate parses to a URL the `ws` constructor accepts. The parse always
      succeeds when that candidate is the URL the subdomain was read from, and the
      connect URL names that subdomain. */
  lemma HandoffConnectsToFirstCandidate(serverArg: string, toArg: Option<string>, opts: Options, parse: Parser)
    requires Run(serverArg, toArg, opts, parse).Start?
    ensures var o := Run(serverArg, toArg, opts, parse);
      var u := Client.StartClient(Handoff(o), parse);
      var p := parse(o.candidates[0]);
      && (u.Some? <==> p.Some? && Client.WebSocketAccepts(p.value))
      && (u.Some? ==> ValuesOf(u.value.query, "subdomain") == [o.subdomain])
      && (Truthy(opts.serverWsUrl) || IsWsUrl(Trim(serverArg)) ==> p.Some?)
  {
  }
}

=== FILE: client.dfy ===
/** The tunnel client's per-message and per-connection rules (`src/client.ts`):
    replaying one tunnelled request against the local target and building its
    correlated response, the connect URL, the inbound frame filter and the
    classification of a close reason. The HTTP call and the WebSocket are I/O; the
    upstream result and the parsed URLs come in as values. */
module Client {
  import opened Optional
  import opened Text
  import opened Base64
  import opened Urls

  /** A header value: one string, or a list for a repeated header such as `set-cookie`. */
  datatype HeaderValue = Single(text: string) | Multiple(texts: seq<string>)

  type Headers = map<string, HeaderValue>

  /** `TunnelRequestMsg` (its `type` is always `'request'`). */
  datatype RequestMessage = RequestMessage(
    id: string,
    httpMethod: string,
    path: string,
    headers: Option<Headers>,
    bodyBase64: Option<string>)

  /** `TunnelResponseMsg` as the client builds it: the status is always set. */
  datatype ResponseMessage = ResponseMessage(
    id: string,
    status: int,
    headers: Headers,
    bodyBase64: Option<string>)

  /** The `port` of the outbound request options: the URL's own port text, or a number. */
  datatype Port = PortText(text: string) | PortNumber(number: nat)

  /** The `http.RequestOptions` the client builds. */
  datatype RequestOptions = RequestOptions(
    protocol: string,
    hostname: string,
    port: Port,
    httpMethod: string,
    path: string,
    headers: Headers)

  /** What the local target did with the request: it answered (status code, if any,
      headers, and the concatenated body), or the request emitted `error`. */
  datatype Upstream = Responded(statusCode: Option<int>, headers: Headers, body: seq<Byte>) | Failed

  /** One forwarded request: which library was used (`https` or `http`), the options,
      the base64 text whose decoding is written as the request body (None when
      nothing is written), and the response message sent back. */
  datatype Exchange = Exchange(
    secure: bool,
    options: RequestOptions,
    written: Option<string>,
    response: ResponseMessage)

  /** The `https` module is used exactly for the `https:` protocol. */
  predicate IsHttps(target: Url)
  {
    target.protocol == "https:"
  }

  /** `base.port || (isHttps ? 443 : 80)`: an explicit port wins, else the
      scheme's default. */
  function OutboundPort(target: Url): (p: Port)
    ensures p.PortText? <==> target.port != ""
    ensures p.PortText? ==> p.text == target.port
    ensures p.PortNumber? ==> (p.number == 443 <==> IsHttps(target)) && (p.number == 80 <==> !IsHttps(target))
  {
    if target.port != "" then PortText(target.port)
    else if IsHttps(target) then PortNumber(443) else PortNumber(80)
  }

  /** The base path with one trailing slash removed, followed by the request path. */
  function OutboundPath(target: Url, path: string): (p: string)
    ensures |path| <= |p| && p[|p| - |path|..] == path
    ensures var stem := p[..|p| - |path|];
      && (target.pathname == stem || target.pathname == stem + "/")
      && (target.pathname == stem + "/" <==> (|target.pathname| > 0 && target.pathname[|target.pathname| - 1] == '/'))
  {
    var stem := DropTrailingSlash(target.pathname);
    var p := stem + path;
    assert p[..|p| - |path|] == stem;
    p
  }

  /** A character allowed in an HTTP token (a method or a header name). */
  predicate IsTokenChar(c: char)
  {
    ('a' <= c <= 'z') || ('A' <= c <= 'Z') || ('0' <= c <= '9') || c in "!#$%&'*+-.^_`|~"
  }

  /** An HTTP token: one or more token characters. */
  predicate IsHttpToken(s: string)
  {
    |s| > 0 && forall i :: 0 <= i < |s| ==> IsTokenChar(s[i])
  }

  /** A request path Node sends unescaped: every character in U+0021 to U+00FF. */
  predicate PathAccepted(p: string)
  {
    forall i :: 0 <= i < |p| ==> '\U{0021}' <= p[i] <= '\U{00FF}'
  }

  /** Header text Node accepts: tab, visible ASCII, space, and U+0080 to U+00FF. */
  predicate HeaderTextAccepted(v: string)
  {
    forall i :: 0 <= i < |v| ==>
      v[i] == '\t' || (' ' <= v[i] <= '~') || ('\U{0080}' <= v[i] <= '\U{00FF}')
  }

  /** A header Node accepts: a token name and text that is accepted (a list is
      checked as its elements joined by commas). */
  predicate HeaderAccepted(name: string, value: HeaderValue)
  {
    && IsHttpToken(name)
    && match value
       case Single(text) => HeaderTextAccepted(text)
       case Multiple(texts) => forall j :: 0 <= j < |texts| ==> HeaderTextAccepted(texts[j])
  }

  /** The checks `http.request` and `https.request` make before returning. When one
      fails they throw, inside the promise executor of `forwardRequest`: the
      protocol must be the library's own (`http:` for `http`, `https:` for
      `https`), a method must be a token (an empty one means GET), the path must be
      sendable unescaped, and every header must be accepted. */
  predicate RequestBuilds(o: RequestOptions)
  {
    && (o.protocol == "http:" || o.protocol == "https:")
    && (o.httpMethod == "" || IsHttpToken(o.httpMethod))
    && PathAccepted(o.path)
    && forall k :: k in o.headers ==> HeaderAccepted(k, o.headers[k])
  }

  /** The request's headers (none means empty) with `host` set to the target's host;
      no other header is added, removed or changed. */
  function OutboundHeaders(target: Url, headers: Option<Headers>): (h: Headers)
    ensures "host" in h && h["host"] == Single(target.Host())
    ensures forall k :: k != "host" ==> (k in h <==> k in headers.GetOr(map[]))
    ensures forall k :: k != "host" && k in h ==> h[k] == headers.GetOr(map[])[k]
  {
    headers.GetOr(map[])["host" := Single(target.Host())]
  }

  /** The request options built from the target URL and the message. */
  function BuildOptions(target: Url, req: RequestMessage): (o: RequestOptions)
    ensures o.protocol == target.protocol && o.hostname == target.hostname
    ensures o.httpMethod == req.httpMethod
    ensures o.port == OutboundPort(target)
    ensures o.path == OutboundPath(target, req.path)
    ensures o.headers == OutboundHeaders(target, req.headers)
  {
    RequestOptions(target.protocol, target.hostname, OutboundPort(target), req.httpMethod,
                   OutboundPath(target, req.path), OutboundHeaders(target, req.headers))
  }

  /** `if (reqMsg.bodyBase64) request.write(...)`: a body is written exactly when the
      message carries a non-empty base64 string. */
  function BodyToWrite(req: RequestMessage): (w: Option<string>)
    ensures w.Some? <==> Truthy(req.bodyBase64)
    ensures w.Some? ==> w == req.bodyBase64
  {
    if Truthy(req.bodyBase64) then req.bodyBase64 else None
  }

  /** The JSON text of the synthetic error body. */
  const UpstreamErrorJson: string := "{\"error\":\"Upstream error\"}"

  /** `Buffer.from(s)` for text that is plain ASCII, where UTF-8 is one byte per character. */
  function AsciiBytes(s: string): (b: seq<Byte>)
    requires forall i :: 0 <= i < |s| ==> s[i] as int < 128
    ensures |b| == |s| && forall i :: 0 <= i < |s| ==> b[i] == s[i] as int
  {
    seq(|s|, i requires 0 <= i < |s| => s[i] as int)
  }

  /** The body of the 502 response: base64 of the UTF-8 of `{"error":"Upstream error"}`. */
  function UpstreamErrorBody(): (s: string)
    ensures Decode(s) == Some(AsciiBytes(UpstreamErrorJson))
  {
    DecodeEncode(AsciiBytes(UpstreamErrorJson));
    Encode(AsciiBytes(UpstreamErrorJson))
  }

  /** The response message for a request, from what the local target did. */
  function Respond(req: RequestMessage, upstream: Upstream): (r: ResponseMessage)
    ensures r.id == req.id
    ensures upstream.Failed? ==>
      && r.status == 502
      && r.headers == map["content-type" := Single("application/json")]
      && r.bodyBase64.Some?
      && Decode(r.bodyBase64.value) == Some(AsciiBytes(UpstreamErrorJson))
    ensures upstream.Responded? ==> r.headers == upstream.headers
    ensures upstream.Responded? && upstream.statusCode.Some? && upstream.statusCode.value != 0 ==>
      r.status == upstream.statusCode.value
    ensures upstream.Responded? && (upstream.statusCode.None? || upstream.statusCode == Some(0)) ==>
      r.status == 200
    ensures upstream.Responded? ==> (r.bodyBase64.None? <==> |upstream.body| == 0)
    ensures upstream.Responded? && r.bodyBase64.Some? ==> Decode(r.bodyBase64.value) == Some(upstream.body)
  {
    match upstream
    case Failed =>
      ResponseMessage(req.id, 502, map["content-type" := Single("application/json")], Some(UpstreamErrorBody()))
    case Responded(code, headers, body) =>
      var status := if code.Some? && code.value != 0 then code.value else 200;
      DecodeEncode(body);
      ResponseMessage(req.id, status, headers, if |body| > 0 then Some(Encode(body)) else None)
  }

  /** `forwardRequest(toUrl, reqMsg)` once `toUrl` has been parsed: None when
      `lib.request` throws on the options, so that the promise rejects; otherwise
      the exchange, whose response carries the request's id. */
  function Forward(target: Url, req: RequestMessage, upstream: Upstream): (x: Option<Exchange>)
    ensures x.Some? <==> RequestBuilds(BuildOptions(target, req))
    ensures x.Some? ==> x.value.response.id == req.id
    ensures x.Some? ==> (x.value.secure <==> target.protocol == "https:")
    ensures x.Some? ==> x.value.options == BuildOptions(target, req)
    ensures x.Some? ==> (x.value.written.Some? <==> Truthy(req.bodyBase64))
    ensures x.Some? ==> x.value.written == BodyToWrite(req)
    ensures x.Some? ==> x.value.response == Respond(req, upstream)
  {
    var options := BuildOptions(target, req);
    if RequestBuilds(options) then Some(Exchange(IsHttps(target), options, BodyToWrite(req), Respond(req, upstream)))
    else None
  }

  /** An empty request path forwards to exactly the base path when that path has no
      trailing slash: `http://localhost:3000/api` with path `""` goes to `/api`. */
  lemma EmptyPathKeepsBase(target: Url)
    requires target.pathname == [] || target.pathname[|target.pathname| - 1] != '/'
    ensures OutboundPath(target, "") == target.pathname
  {
  }

  /** An inbound WebSocket frame after `JSON.parse`: it threw, or it gave a value
      whose `type` property is `tag` (None when the value is falsy or has no string
      `type`) and whose request fields are `fields`. */
  datatype Frame = Unparseable | Parsed(tag: Option<string>, fields: RequestMessage)

  /** The `message` handler: a frame is forwarded, and its response sent, only when
      it parsed and its `type` is exactly `'request'`; every other frame is dropped
      without a reply. `target` is `new URL(cfg.to)`, which runs inside the promise
      of `forwardRequest`, so a target that does not parse drops the frame too, and
      so does a request `lib.request` refuses to build: the rejected promise throws
      at the `await` and the `catch` swallows it. */
  function Dispatch(frame: Frame, target: Option<Url>, upstream: Upstream): (x: Option<Exchange>)
    ensures x.Some? <==> && frame.Parsed? && frame.tag == Some("request") && target.Some?
                         && RequestBuilds(BuildOptions(target.value, frame.fields))
    ensures x.Some? ==> x.value.response.id == frame.fields.id
    ensures x.Some? ==> Forward(target.value, frame.fields, upstream) == x
  {
    match frame
    case Unparseable => None
    case Parsed(tag, fields) =>
      if tag == Some("request") && target.Some? then Forward(target.value, fields, upstream)
      else None
  }

  /** A target whose scheme is neither `http:` nor `https:` (such as `--to
      localhost:3000`, which parses with the scheme `localhost:`) drops every request. */
  lemma ForeignSchemeDropsRequests(target: Url, req: RequestMessage, upstream: Upstream)
    requires target.protocol != "http:" && target.protocol != "https:"
    ensures Dispatch(Parsed(Some("request"), req), Some(target), upstream).None?
  {
  }

  /** A request whose path holds a space, a C0 control character (below U+0021) or a
      character above U+00FF is dropped. */
  lemma UnescapedPathDropsRequest(target: Url, req: RequestMessage, upstream: Upstream, i: nat)
    requires i < |req.path| && !('\U{0021}' <= req.path[i] <= '\U{00FF}')
    ensures Dispatch(Parsed(Some("request"), req), Some(target), upstream).None?
  {
    var o := BuildOptions(target, req);
    var p := o.path;
    var k := |p| - |req.path|;
    assert p[k..][i] == req.path[i];
    assert p[k + i] == req.path[i];
    assert !PathAccepted(p);
    assert !RequestBuilds(o);
  }

  /** A headerless request with a token method and a sendable path, sent to an
      `http:` or `https:` target whose base path and host are sendable, is answered. */
  lemma PlainRequestIsAnswered(target: Url, req: RequestMessage, upstream: Upstream)
    requires target.protocol == "http:" || target.protocol == "https:"
    requires IsHttpToken(req.httpMethod) && req.headers.None?
    requires PathAccepted(target.pathname) && PathAccepted(req.path)
    requires HeaderTextAccepted(target.Host())
    ensures Dispatch(Parsed(Some("request"), req), Some(target), upstream).Some?
  {
    var o := BuildOptions(target, req);
    var stem := DropTrailingSlash(target.pathname);
    assert o.path == stem + req.path;
    assert PathAccepted(o.path) by {
      forall i | 0 <= i < |o.path| ensures '\U{0021}' <= o.path[i] <= '\U{00FF}' {
        if i < |stem| { assert o.path[i] == target.pathname[i]; }
        else { assert o.path[i] == req.path[i - |stem|]; }
      }
    }
    assert o.headers == map["host" := Single(target.Host())];
    assert IsHttpToken("host") by {
      assert forall i :: 0 <= i < 4 ==> "host"[i] in "host";
    }
  }

  /** Close reasons the server uses for conditions the client must not retry. */
  const SubdomainInUse: string := "Subdomain already in use"
  const SubdomainRejected: string := "Invalid or not allowed subdomain"
  const AuthFailed: string := "Auth failed"

  /** Delay before reconnecting after any other close. */
  const ReconnectDelayMs: nat := 2000

  /** What a close does: exit the process with a code, or reconnect after a delay. */
  datatype CloseOutcome = Exit(code: int) | Reconnect(delayMs: nat)

  /** `phrase` occurs somewhere in `reason`. */
  ghost predicate Mentions(reason: string, phrase: string)
  {
    exists i :: OccursAt(reason, phrase, i)
  }

  /** The `close` handler: the reason (absent means empty) is tested against the
      three fatal phrases in a fixed order and the first match decides the exit
      code; anything else reconnects after two seconds. */
  function ClassifyClose(reason: Option<string>): (o: CloseOutcome)
    ensures o == Exit(2) <==> Mentions(reason.GetOr(""), SubdomainInUse)
    ensures o == Exit(3) <==> !Mentions(reason.GetOr(""), SubdomainInUse) && Mentions(reason.GetOr(""), SubdomainRejected)
    ensures o == Exit(4) <==> && !Mentions(reason.GetOr(""), SubdomainInUse)
                              && !Mentions(reason.GetOr(""), SubdomainRejected)
                              && Mentions(reason.GetOr(""), AuthFailed)
    ensures o.Reconnect? <==> && !Mentions(reason.GetOr(""), SubdomainInUse)
                              && !Mentions(reason.GetOr(""), SubdomainRejected)
                              && !Mentions(reason.GetOr(""), AuthFailed)
    ensures o.Reconnect? ==> o.delayMs == ReconnectDelayMs
    ensures o.Exit? ==> o.code in {2, 3, 4}
  {
    var r := reason.GetOr("");
    if Includes(r, SubdomainInUse) then Exit(2)
    else if Includes(r, SubdomainRejected) then Exit(3)
    else if Includes(r, AuthFailed) then Exit(4)
    else Reconnect(ReconnectDelayMs)
  }

  /** A phrase longer than the reason cannot occur in it. */
  lemma NotMentionedWhenLonger(reason: string, phrase: string)
    requires |reason| < |phrase|
    ensures !Mentions(reason, phrase)
  {
  }

  /** A close with no reason, or an empty one, always reconnects. */
  lemma NoReasonReconnects()
    ensures ClassifyClose(None) == Reconnect(ReconnectDelayMs)
    ensures ClassifyClose(Some("")) == Reconnect(ReconnectDelayMs)
  {
    NotMentionedWhenLonger("", SubdomainInUse);
    NotMentionedWhenLonger("", SubdomainRejected);
    NotMentionedWhenLonger("", AuthFailed);
  }

  /** The phrases are tested in a fixed order: a reason naming both an
      authentication failure and a taken subdomain exits with the subdomain code. */
  lemma FirstFatalPhraseWins()
    ensures ClassifyClose(Some("Auth failed; Subdomain already in use")) == Exit(2)
  {
    var r := "Auth failed; " + SubdomainInUse;
    assert r == "Auth failed; Subdomain already in use";
    assert r[13..13 + |SubdomainInUse|] == SubdomainInUse;
    assert OccursAt(r, SubdomainInUse, 13);
  }

  /** `ClientConfig`. `serverWsUrl` is None when the object handed in has no such
      property, which its declared type forbids but an untyped cast lets through. */
  datatype ClientConfig = ClientConfig(serverWsUrl: Option<string>, subdomain: string, token: Option<string>, to: string)

  /** The text `new URL(v)` parses: an absent value is stringified to "undefined". */
  function UrlArgument(v: Option<string>): string
  {
    v.GetOr("undefined")
  }

  /** The WebSocket URL: the server URL with its `subdomain` query parameter set and,
      when the token is non-empty, its `token` parameter set; nothing else changes. */
  function ConnectUrl(base: Url, subdomain: string, token: Option<string>): (u: Url)
    ensures u.(query := base.query) == base
    ensures ValuesOf(u.query, "subdomain") == [subdomain]
    ensures Truthy(token) ==> ValuesOf(u.query, "token") == [token.value]
    ensures !Truthy(token) ==> ValuesOf(u.query, "token") == ValuesOf(base.query, "token")
    ensures forall n :: n != "subdomain" && n != "token" ==> ValuesOf(u.query, n) == ValuesOf(base.query, n)
  {
    var q := Set(base.query, "subdomain", subdomain);
    base.(query := if Truthy(token) then Set(q, "token", token.value) else q)
  }

  /** The URLs the `ws` constructor accepts: a WebSocket scheme, or an HTTP one it
      rewrites to one, or an IPC URL with a path; and no fragment. It throws a
      `SyntaxError` on any other URL. */
  predicate WebSocketAccepts(u: Url)
  {
    && (|| u.protocol == "ws:" || u.protocol == "wss:" || u.protocol == "http:" || u.protocol == "https:"
        || (u.protocol == "ws+unix:" && u.pathname != ""))
    && u.hash == ""
  }

  /** Setting query parameters never changes whether the `ws` constructor accepts a URL. */
  lemma ConnectUrlKeepsAcceptance(base: Url, subdomain: string, token: Option<string>)
    ensures WebSocketAccepts(ConnectUrl(base, subdomain, token)) <==> WebSocketAccepts(base)
  {
    var u := ConnectUrl(base, subdomain, token);
    assert u.protocol == base.protocol && u.pathname == base.pathname && u.hash == base.hash by {
      assert u.(query := base.query) == base;
    }
  }

  /** `startClient(cfg)` up to the first connection: the URL it connects to, or None
      when it throws before any socket exists, because `new URL(cfg.serverWsUrl)`
      throws or the `ws` constructor refuses the connect URL. */
  function StartClient(cfg: ClientConfig, parse: Parser): (u: Option<Url>)
    ensures var p := parse(UrlArgument(cfg.serverWsUrl));
      u.Some? <==> p.Some? && WebSocketAccepts(p.value)
    ensures u.Some? ==> u.value == ConnectUrl(parse(UrlArgument(cfg.serverWsUrl)).value, cfg.subdomain, cfg.token)
  {
    match parse(UrlArgument(cfg.serverWsUrl))
    case None => None
    case Some(base) =>
      var u := ConnectUrl(base, cfg.subdomain, cfg.token);
      ConnectUrlKeepsAcceptance(base, cfg.subdomain, cfg.token);
      if WebSocketAccepts(u) then Some(u) else None
  }
}

=== FILE: lifecycle.dfy ===
/** The connection loop of `startClient` (`src/client.ts`): every call of `connect`
    opens a new WebSocket and starts a 30-second heartbeat interval; a close either
    exits the process or schedules `connect` again after two seconds. Timers and
    the transport become events; the model tracks which sockets exist, which
    heartbeat intervals still run, and what each event does. */
module Lifecycle {
  import opened Optional
  import opened Client

  /** `ws.readyState` as the client looks at it (CLOSING counts as not open, like CLOSED). */
  datatype ReadyState = Connecting | Open | Closed

  /** Which socket a heartbeat tick inspects. The code reads the shared `ws`
      variable, which after a reconnect holds the newest socket (CurrentSocket);
      the evidently intended check looks at the socket the interval was started
      for (OwnSocket). */
  datatype BeatCheck = CurrentSocket | OwnSocket

  /** The client after a run of events. `sockets[i]` is the socket the i-th call of
      `connect` created, and the last one is what `ws` refers to; `beats[i]` says
      whether the interval that call started still runs; `reconnectPending` is a
      scheduled `setTimeout(connect, 2000)`; `exitCode` is set once the process has
      exited. */
  datatype State = State(sockets: seq<ReadyState>, beats: seq<bool>, reconnectPending: bool, exitCode: Option<int>)

  /** What can happen next: the current socket opens or closes (with its reason),
      the reconnect timer fires, or heartbeat interval `interval` ticks. */
  datatype Event = Opened | ClosedWith(reason: Option<string>) | ReconnectTimer | Tick(interval: nat)

  /** The state after an event and the socket pinged by it, if any. */
  datatype Transition = Transition(next: State, pinged: Option<nat>)

  /** `connect()` as `startClient` first calls it. */
  const Initial: State := State([Connecting], [true], false, None)

  /** The shape every reachable state has: one interval per socket, every socket but
      the newest closed, a pending reconnect only after the newest closed, and an
      exit only with one of the three fatal codes. */
  ghost predicate Valid(s: State)
  {
    && |s.sockets| == |s.beats| >= 1
    && (forall i :: 0 <= i < |s.sockets| - 1 ==> s.sockets[i] == Closed)
    && (s.reconnectPending ==> s.sockets[|s.sockets| - 1] == Closed && s.exitCode.None?)
    && (s.exitCode.Some? ==> s.exitCode.value in {2, 3, 4})
  }

  /** The socket `ws` refers to. */
  function Current(s: State): nat
    requires Valid(s)
  {
    |s.sockets| - 1
  }

  /** One heartbeat tick of the running interval `k`: ping while the inspected socket
      is open, otherwise clear the interval. Nothing else changes. */
  function Beat(s: State, k: nat, check: BeatCheck): (t: Transition)
    requires Valid(s) && k < |s.beats| && s.beats[k]
    ensures var watched := if check == CurrentSocket then Current(s) else k;
      && (t.pinged.Some? <==> s.sockets[watched] == Open)
      && (t.pinged.Some? ==> t.pinged.value == watched && t.next == s)
      && (t.pinged.None? ==> t.next == s.(beats := s.beats[k := false]))
  {
    var watched := if check == CurrentSocket then Current(s) else k;
    if s.sockets[watched] == Open then Transition(s, Some(watched))
    else Transition(s.(beats := s.beats[k := false]), None)
  }

  /** What one event does. After an exit nothing happens any more; a close of the
      current socket is classified by `ClassifyClose`. */
  function Step(s: State, e: Event, check: BeatCheck): (t: Transition)
    requires Valid(s)
    ensures Valid(t.next)
    ensures |s.sockets| <= |t.next.sockets|
  {
    var last := Current(s);
    if s.exitCode.Some? then Transition(s, None)
    else match e
      case Opened =>
        if s.sockets[last] == Connecting then Transition(s.(sockets := s.sockets[last := Open]), None)
        else Transition(s, None)
      case ClosedWith(reason) =>
        if s.sockets[last] == Closed then Transition(s, None)
        else
          var closed := s.(sockets := s.sockets[last := Closed]);
          (match ClassifyClose(reason)
           case Exit(code) => Transition(closed.(exitCode := Some(code)), None)
           case Reconnect(_) => Transition(closed.(reconnectPending := true), None))
      case ReconnectTimer =>
        if s.reconnectPending then Transition(State(s.sockets + [Connecting], s.beats + [true], false, None), None)
        else Transition(s, None)
      case Tick(k) =>
        if k < |s.beats| && s.beats[k] then Beat(s, k, check) else Transition(s, None)
  }

  /** The state after a run of events, and the sockets pinged along the way. */
  function Run(s: State, events: seq<Event>, check: BeatCheck): (r: (State, seq<nat>))
    requires Valid(s)
    ensures Valid(r.0)
    decreases |events|
  {
    if |events| == 0 then (s, [])
    else
      var t := Step(s, events[0], check);
      var rest := Run(t.next, events[1..], check);
      (rest.0, (if t.pinged.Some? then [t.pinged.value] else []) + rest.1)
  }

  /** A process that has exited stays exited, with the same code, and does nothing. */
  lemma {:induction false} ExitIsFinal(s: State, events: seq<Event>, check: BeatCheck)
    requires Valid(s) && s.exitCode.Some?
    ensures Run(s, events, check) == (s, [])
    decreases |events|
  {
    if |events| > 0 {
      var t := Step(s, events[0], check);
      assert t == Transition(s, None);
      ExitIsFinal(s, events[1..], check);
      var rest := Run(t.next, events[1..], check);
      assert rest == (s, []);
      assert [] + rest.1 == rest.1;
    }
  }

  /** The process exits only on a close whose reason is one of the fatal ones, and
      then with that reason's code. */
  lemma ExitOnlyOnFatalClose(s: State, e: Event, check: BeatCheck)
    requires Valid(s) && s.exitCode.None?
    requires Step(s, e, check).next.exitCode.Some?
    ensures e.ClosedWith? && ClassifyClose(e.reason) == Exit(Step(s, e, check).next.exitCode.value)
  {
  }

  /** A live socket closing with a fatal reason exits the process with that reason's
      code: the socket is closed, no reconnect is scheduled and nothing is pinged. */
  lemma FatalCloseExits(s: State, reason: Option<string>, check: BeatCheck)
    requires Valid(s) && s.exitCode.None? && s.sockets[Current(s)] != Closed
    requires ClassifyClose(reason).Exit?
    ensures Step(s, ClosedWith(reason), check) ==
      Transition(State(s.sockets[Current(s) := Closed], s.beats, false, Some(ClassifyClose(reason).code)), None)
  {
  }

  /** Any other close of a live socket, however many reconnects came before,
      schedules a reconnect, and the timer then opens a fresh socket with its own
      heartbeat: there is no retry limit. */
  lemma ReconnectAfterOtherClose(s: State, reason: Option<string>, check: BeatCheck)
    requires Valid(s) && s.exitCode.None? && s.sockets[Current(s)] != Closed
    requires ClassifyClose(reason).Reconnect?
    ensures var closed := Step(s, ClosedWith(reason), check).next;
      && closed.reconnectPending && closed.exitCode.None?
      && Step(closed, ReconnectTimer, check).next ==
         State(s.sockets[Current(s) := Closed] + [Connecting], s.beats + [true], false, None)
  {
  }

  /** With the evidently intended check, an interval pings only its own socket,
      which is then the current one. */
  lemma OwnSocketPingsOnlyCurrent(s: State, e: Event)
    requires Valid(s)
    requires Step(s, e, OwnSocket).pinged.Some?
    ensures e.Tick? && Step(s, e, OwnSocket).pinged.value == e.interval == Current(s)
  {
  }

  /** With the evidently intended check, the first tick of an interval whose socket
      has been replaced clears it without pinging. */
  lemma StaleBeatStops(s: State, k: nat)
    requires Valid(s) && s.exitCode.None? && k < Current(s) && s.beats[k]
    ensures Step(s, Tick(k), OwnSocket) == Transition(s.(beats := s.beats[k := false]), None)
  {
  }

  /** As written, an interval whose socket has been replaced keeps running whenever
      the newest socket is open at its tick, and pings that socket. */
  lemma StaleBeatPingsCurrentSocket(s: State, k: nat)
    requires Valid(s) && s.exitCode.None? && k < Current(s) && s.beats[k]
    requires s.sockets[Current(s)] == Open
    ensures Step(s, Tick(k), CurrentSocket) == Transition(s, Some(Current(s)))
  {
  }

  /** A concrete run: connect, open, drop with no reason, reconnect, open, then the
      first interval ticks. As written, two intervals are left running and the old
      one pings the new socket; with the intended check the old one stops. */
  lemma HeartbeatLeakExample()
    ensures var events := [Opened, ClosedWith(None), ReconnectTimer, Opened, Tick(0)];
      && Run(Initial, events, CurrentSocket) == (State([Closed, Open], [true, true], false, None), [1])
      && Run(Initial, events, OwnSocket) == (State([Closed, Open], [false, true], false, None), [])
  {
    NoReasonReconnects();
    var s1 := State([Open], [true], false, None);
    var s2 := State([Closed], [true], true, None);
    var s3 := State([Closed, Connecting], [true, true], false, None);
    var s4 := State([Closed, Open], [true, true], false, None);
    var s5 := State([Closed, Open], [false, true], false, None);
    LeakPrefix(CurrentSocket);
    LeakPrefix(OwnSocket);
    assert Run(s4, [Tick(0)], CurrentSocket) == (s4, [1]) by {
      assert Step(s4, Tick(0), CurrentSocket) == Transition(s4, Some(1));
      assert Run(s4, [Tick(0)][1..], CurrentSocket) == (s4, []);
      assert [1] + [] == [1];
    }
    assert Run(s4, [Tick(0)], OwnSocket) == (s5, []) by {
      assert Step(s4, Tick(0), OwnSocket) == Transition(s5, None);
      assert Run(s5, [Tick(0)][1..], OwnSocket) == (s5, []);
    }
  }

  /** The first four events of the leak example take either variant to the same
      state, two sockets of which the newer is open, without pinging. */
  lemma LeakPrefix(check: BeatCheck)
    ensures Run(Initial, [Opened, ClosedWith(None), ReconnectTimer, Opened, Tick(0)], check)
         == Run(State([Closed, Open], [true, true], false, None), [Tick(0)], check)
  {
    NoReasonReconnects();
    var events := [Opened, ClosedWith(None), ReconnectTimer, Opened, Tick(0)];
    var s1 := State([Open], [true], false, None);
    var s2 := State([Closed], [true], true, None);
    var s3 := State([Closed, Connecting], [true, true], false, None);
    var s4 := State([Closed, Open], [true, true], false, None);
    assert Step(Initial, Opened, check) == Transition(s1, None);
    assert Step(s1, ClosedWith(None), check) == Transition(s2, None);
    assert Step(s2, ReconnectTimer, check) == Transition(s3, None);
    assert Step(s3, Opened, check) == Transition(s4, None);
    var r4 := Run(s4, [Tick(0)], check);
    assert [] + r4.1 == r4.1;
    assert Run(s3, events[3..], check) == r4 by { assert events[3..][1..] == [Tick(0)]; }
    assert Run(s2, events[2..], check) == r4 by { assert events[2..][1..] == events[3..]; }
    assert Run(s1, events[1..], check) == r4 by { assert events[1..][1..] == events[2..]; }
  }
}

=== FILE: optional.dfy ===
/** The optional value used throughout the model: a JavaScript property that may be
    `undefined`, a `string | null` result, or a URL that failed to parse. */
module Optional {

  datatype Option<+T> = None | Some(value: T) {

    /** Returns the value held by Some, or `default` for None. */
    function GetOr(default: T): T
    {
      match this
      case Some(v) => v
      case None => default
    }
  }

  /** JavaScript truthiness of an optional string: `undefined` and `""` are falsy. */
  predicate Truthy(s: Option<string>)
  {
    s.Some? && s.value != ""
  }
}

=== FILE: text.dfy ===
/** The JavaScript string operations the client and the command line rely on:
    `trim`, `split`, `includes`, a case-insensitive scheme prefix test and the
    removal of one trailing slash (`replace(/\/$/, '')`). */
module Text {

  /** The code points ECMAScript counts as WhiteSpace or LineTerminator, which is
      exactly what `String.prototype.trim` removes from both ends. */
  predicate IsJsSpace(c: char)
  {
    || c == '\t' || c == '\n' || c == '\U{000B}' || c == '\U{000C}' || c == '\r'
    || c == ' ' || c == '\U{00A0}' || c == '\U{1680}'
    || ('\U{2000}' <= c <= '\U{200A}')
    || c == '\U{2028}' || c == '\U{2029}' || c == '\U{202F}' || c == '\U{205F}'
    || c == '\U{3000}' || c == '\U{FEFF}'
  }

  /** Number of white-space characters at the start of `s`. */
  function LeadingSpaces(s: string): (n: nat)
    ensures n <= |s|
    ensures forall j :: 0 <= j < n ==> IsJsSpace(s[j])
    ensures n < |s| ==> !IsJsSpace(s[n])
    decreases |s|
  {
    if |s| > 0 && IsJsSpace(s[0]) then 1 + LeadingSpaces(s[1..]) else 0
  }

  /** Number of white-space characters at the end of `s`. */
  function TrailingSpaces(s: string): (n: nat)
    ensures n <= |s|
    ensures forall j :: |s| - n <= j < |s| ==> IsJsSpace(s[j])
    ensures n < |s| ==> !IsJsSpace(s[|s| - n - 1])
    decreases |s|
  {
    if |s| > 0 && IsJsSpace(s[|s| - 1]) then 1 + TrailingSpaces(s[..|s| - 1]) else 0
  }

  /** `s.trim()`: the infix of `s` left after dropping white space at both ends. */
  function Trim(s: string): (r: string)
    ensures r == [] || (!IsJsSpace(r[0]) && !IsJsSpace(r[|r| - 1]))
    ensures exists i :: IsTrimmedInfix(s, r, i)
  {
    var lead := LeadingSpaces(s);
    var a := s[lead..];
    var trail := TrailingSpaces(a);
    var r := a[..|a| - trail];
    assert IsTrimmedInfix(s, r, lead) by {
      assert s[lead..lead + |r|] == r;
      forall j | lead + |r| <= j < |s| ensures IsJsSpace(s[j]) {
        assert s[j] == a[j - lead];
      }
    }
    r
  }

  /** `r` sits at offset `i` of `s`, and only white space surrounds it there. */
  ghost predicate IsTrimmedInfix(s: string, r: string, i: int)
  {
    && 0 <= i && i + |r| <= |s|
    && s[i..i + |r|] == r
    && (forall j :: 0 <= j < i ==> IsJsSpace(s[j]))
    && (forall j :: i + |r| <= j < |s| ==> IsJsSpace(s[j]))
  }

  /** A string with no white space at either end is its own trim. */
  lemma TrimOfTrimmed(s: string)
    requires s == [] || (!IsJsSpace(s[0]) && !IsJsSpace(s[|s| - 1]))
    ensures Trim(s) == s
  {
    assert LeadingSpaces(s) == 0;
    assert s[0..] == s;
    assert TrailingSpaces(s) == 0;
    assert s[..|s|] == s;
  }

  /** Trimming twice is trimming once. */
  lemma TrimIdempotent(s: string)
    ensures Trim(Trim(s)) == Trim(s)
  {
    TrimOfTrimmed(Trim(s));
  }

  /** `s.replace(/\/$/, '')`: without the multiline flag `$` anchors at the very end,
      so at most one trailing slash goes. */
  function DropTrailingSlash(s: string): (r: string)
    ensures s == r || s == r + "/"
    ensures s == r + "/" <==> (|s| > 0 && s[|s| - 1] == '/')
  {
    if |s| > 0 && s[|s| - 1] == '/' then s[..|s| - 1] else s
  }

  /** `s.split(sep)` for a one-character separator: the pieces between separators,
      including empty ones; splitting the empty string gives one empty piece. */
  function Split(s: string, sep: char): (parts: seq<string>)
    ensures |parts| >= 1
    ensures forall i :: 0 <= i < |parts| ==> sep !in parts[i]
    ensures forall i, c :: 0 <= i < |parts| && c in parts[i] ==> c in s
    decreases |s|
  {
    if |s| == 0 then [""]
    else
      var rest := Split(s[1..], sep);
      assert forall c :: c in s[1..] ==> c in s;
      if s[0] == sep then [""] + rest
      else [[s[0]] + rest[0]] + rest[1..]
  }

  /** `parts.join(sep)`. */
  function Join(parts: seq<string>, sep: char): string
    requires |parts| >= 1
    decreases |parts|
  {
    if |parts| == 1 then parts[0] else parts[0] + [sep] + Join(parts[1..], sep)
  }

  /** Joining the pieces of a split restores the original string. */
  lemma {:induction false} JoinSplit(s: string, sep: char)
    ensures Join(Split(s, sep), sep) == s
    decreases |s|
  {
    if |s| > 0 {
      var rest := Split(s[1..], sep);
      JoinSplit(s[1..], sep);
      if s[0] == sep {
        assert Split(s, sep)[1..] == rest;
      } else if |rest| == 1 {
        assert Split(s, sep) == [[s[0]] + rest[0]];
      } else {
        var parts := Split(s, sep);
        assert parts[1..] == rest[1..];
        calc {
          Join(parts, sep);
          [s[0]] + rest[0] + [sep] + Join(rest[1..], sep);
          [s[0]] + Join(rest, sep);
          s;
        }
      }
    }
  }

  /** Splitting a join of separator-free pieces gives the pieces back. */
  lemma {:induction false} SplitJoin(parts: seq<string>, sep: char)
    requires |parts| >= 1
    requires forall i :: 0 <= i < |parts| ==> sep !in parts[i]
    ensures Split(Join(parts, sep), sep) == parts
    decreases |parts|, |parts[0]|
  {
    if |parts[0]| > 0 {
      var p := parts[0];
      var tail := [p[1..]] + parts[1..];
      assert sep !in p[1..] by {
        assert forall k :: 0 <= k < |p[1..]| ==> p[1..][k] == p[k + 1];
      }
      SplitJoin(tail, sep);
      SplitJoinHead(parts, sep, tail);
    } else if |parts| > 1 {
      SplitJoin(parts[1..], sep);
      assert Join(parts, sep) == [sep] + Join(parts[1..], sep);
      assert ([sep] + Join(parts[1..], sep))[1..] == Join(parts[1..], sep);
      assert [""] + parts[1..] == parts;
    }
  }

  /** The inductive step of `SplitJoin` that moves the first character of the first
      piece in front of the join. */
  lemma SplitJoinHead(parts: seq<string>, sep: char, tail: seq<string>)
    requires |parts| >= 1 && |parts[0]| > 0 && sep !in parts[0]
    requires tail == [parts[0][1..]] + parts[1..]
    requires Split(Join(tail, sep), sep) == tail
    ensures Split(Join(parts, sep), sep) == parts
  {
    var p := parts[0];
    assert Join(parts, sep) == [p[0]] + Join(tail, sep) by {
      if |parts| == 1 {
        assert p == [p[0]] + p[1..];
      } else {
        assert tail[1..] == parts[1..];
        assert p == [p[0]] + p[1..];
      }
    }
    assert p[0] != sep by { assert p[0] in p; }
    assert ([p[0]] + Join(tail, sep))[1..] == Join(tail, sep);
    assert [p[0]] + p[1..] == p;
    assert [p] + tail[1..] == parts;
  }

  /** The first piece of a split is the prefix of `s` up to the first separator,
      and a second piece exists exactly when a separator follows it. */
  lemma {:induction false} SplitHead(s: string, sep: char)
    ensures var h := Split(s, sep)[0];
      && |h| <= |s| && s[..|h|] == h
      && (|Split(s, sep)| > 1 <==> |h| < |s|)
      && (|h| < |s| ==> s[|h|] == sep)
    decreases |s|
  {
    if |s| > 0 && s[0] != sep {
      SplitHead(s[1..], sep);
    }
  }

  /** The non-empty pieces, in order: `.filter(Boolean)` on strings. */
  function NonEmpty(parts: seq<string>): (r: seq<string>)
    ensures |r| <= |parts|
    ensures forall i :: 0 <= i < |r| ==> r[i] != ""
    ensures forall x :: x in r <==> x in parts && x != ""
    ensures multiset(r) == multiset(parts)["" := 0]
    decreases |parts|
  {
    if |parts| == 0 then []
    else
      assert parts == [parts[0]] + parts[1..];
      if parts[0] == "" then NonEmpty(parts[1..])
      else [parts[0]] + NonEmpty(parts[1..])
  }

  /** Filtering keeps the order: the filter of a concatenation is the
      concatenation of the filters. */
  lemma {:induction false} NonEmptyAppend(a: seq<string>, b: seq<string>)
    ensures NonEmpty(a + b) == NonEmpty(a) + NonEmpty(b)
    decreases |a|
  {
    if |a| == 0 {
      assert a + b == b;
    } else {
      assert (a + b)[0] == a[0];
      assert (a + b)[1..] == a[1..] + b;
      NonEmptyAppend(a[1..], b);
    }
  }

  /** `l` sits at offset `k` of `s` after a run of separators and is followed by one. */
  ghost predicate FirstLabelAt(s: string, sep: char, l: string, k: int)
  {
    && 0 <= k && k + |l| < |s|
    && (forall j :: 0 <= j < k ==> s[j] == sep)
    && s[k..k + |l|] == l
    && s[k + |l|] == sep
  }

  /** The first non-empty piece of a split starts after a run of separators and,
      when a further non-empty piece exists, is followed by a separator. */
  lemma {:induction false} FirstLabelPosition(s: string, sep: char)
    requires |NonEmpty(Split(s, sep))| >= 2
    ensures exists k :: FirstLabelAt(s, sep, NonEmpty(Split(s, sep))[0], k)
    decreases |s|
  {
    var parts := Split(s, sep);
    var l := NonEmpty(parts)[0];
    if s[0] == sep {
      assert parts == [""] + Split(s[1..], sep);
      assert parts[1..] == Split(s[1..], sep);
      FirstLabelPosition(s[1..], sep);
      var k :| FirstLabelAt(s[1..], sep, l, k);
      LabelAfterSeparator(s, sep, l, k);
    } else {
      SplitHead(s, sep);
      assert parts[0] != "" by { assert s[..|parts[0]|][0] == s[0]; }
      assert l == parts[0];
      assert s[0..|l|] == l;
      assert FirstLabelAt(s, sep, l, 0);
    }
  }

  /** A leading separator moves a label one place to the right. */
  lemma LabelAfterSeparator(s: string, sep: char, l: string, k: int)
    requires |s| > 0 && s[0] == sep && FirstLabelAt(s[1..], sep, l, k)
    ensures FirstLabelAt(s, sep, l, k + 1)
  {
    assert s[k + 1..k + 1 + |l|] == s[1..][k..k + |l|];
    forall j | 0 <= j < k + 1 ensures s[j] == sep {
      if j > 0 { assert s[j] == s[1..][j - 1]; }
    }
  }

  /** `s.includes(sub)`: whether `sub` occurs anywhere in `s`. */
  function Includes(s: string, sub: string): (b: bool)
    ensures b <==> exists i :: OccursAt(s, sub, i)
    decreases |s|
  {
    if |sub| <= |s| && s[..|sub|] == sub then
      assert OccursAt(s, sub, 0);
      true
    else if |s| == 0 then
      false
    else
      var b := Includes(s[1..], sub);
      assert b ==> exists i :: OccursAt(s, sub, i) by {
        if b {
          var i :| OccursAt(s[1..], sub, i);
          assert s[i + 1..i + 1 + |sub|] == s[1..][i..i + |sub|];
          assert OccursAt(s, sub, i + 1);
        }
      }
      assert (exists i :: OccursAt(s, sub, i)) ==> b by {
        if exists i :: OccursAt(s, sub, i) {
          var i :| OccursAt(s, sub, i);
          assert i != 0;
          assert s[1..][i - 1..i - 1 + |sub|] == s[i..i + |sub|];
          assert OccursAt(s[1..], sub, i - 1);
        }
      }
      b
  }

  /** `sub` occurs in `s` starting at index `i`. */
  ghost predicate OccursAt(s: string, sub: string, i: int)
  {
    0 <= i && i + |sub| <= |s| && s[i..i + |sub|] == sub
  }

  /** ASCII lower-casing: what a case-insensitive regular expression without the
      `u` flag identifies for the ASCII letters of a scheme. */
  function AsciiLower(c: char): (d: char)
    ensures 'A' <= c <= 'Z' ==> 'a' <= d <= 'z' && d as int == c as int + 32
    ensures !('A' <= c <= 'Z') ==> d == c
  {
    if 'A' <= c <= 'Z' then (c as int + 32) as char else c
  }

  /** `s` starts with the lower-case text `p` when letters are compared without case. */
  predicate StartsWithFolded(s: string, p: string)
  {
    |p| <= |s| && forall i :: 0 <= i < |p| ==> AsciiLower(s[i]) == p[i]
  }

  /** `/^wss?:\/\//i.test(s)`. */
  predicate IsWsUrl(s: string)
  {
    StartsWithFolded(s, "ws://") || StartsWithFolded(s, "wss://")
  }

  /** `/^https?:\/\//i.test(s)`. */
  predicate IsHttpUrl(s: string)
  {
    StartsWithFolded(s, "http://") || StartsWithFolded(s, "https://")
  }

  /** A string that starts with `p` literally also starts with it case-insensitively. */
  lemma PrefixIsFolded(p: string, rest: string)
    requires forall i :: 0 <= i < |p| ==> AsciiLower(p[i]) == p[i]
    ensures StartsWithFolded(p + rest, p)
  {
    assert forall i :: 0 <= i < |p| ==> (p + rest)[i] == p[i];
  }
}

=== FILE: urls.dfy ===
/** The part of a WHATWG URL the client touches: a few accessors of a parsed URL,
    and `url.searchParams.set(name, value)` on its query. Parsing itself stays
    abstract: it is a function handed in by the caller. */
module Urls {
  import opened Optional

  /** One name-value pair of a query, kept in order as URLSearchParams keeps them. */
  datatype Param = Param(name: string, value: string)

  /** A parsed URL. `protocol` includes its colon (`"https:"`); `port` is `""` when
      the URL names no port or the scheme's default port; `hash` is the fragment
      with its `#`, or `""` when the fragment is absent or empty. */
  datatype Url = Url(protocol: string, hostname: string, port: string, pathname: string, query: seq<Param>, hash: string)
  {
    /** `url.host`: the host name, followed by `:port` when a port is set. */
    function Host(): (h: string)
      ensures port == "" ==> h == hostname
      ensures port != "" ==> |h| == |hostname| + 1 + |port| && h[..|hostname|] == hostname
                             && h[|hostname|] == ':' && h[|hostname| + 1..] == port
    {
      if port == "" then hostname else hostname + ":" + port
    }
  }

  /** `new URL(text)`, with None where the constructor throws. */
  type Parser = string -> Option<Url>

  /** Without a base URL, the WHATWG parser fails on input that has no scheme, and a
      scheme always ends in `:`. This is the one property of parsing the model uses. */
  ghost predicate SchemeRequired(parse: Parser)
  {
    forall s :: parse(s).Some? ==> ':' in s
  }

  /** `searchParams.getAll(name)`: the values of the pairs named `name`, in order. */
  function ValuesOf(q: seq<Param>, name: string): (vs: seq<string>)
    ensures |vs| <= |q|
    decreases |q|
  {
    if |q| == 0 then []
    else if q[0].name == name then [q[0].value] + ValuesOf(q[1..], name)
    else ValuesOf(q[1..], name)
  }

  /** The pairs whose name is not `name`, in order. */
  function Others(q: seq<Param>, name: string): (r: seq<Param>)
    ensures ValuesOf(r, name) == []
    ensures forall n :: n != name ==> ValuesOf(r, n) == ValuesOf(q, n)
    decreases |q|
  {
    if |q| == 0 then []
    else if q[0].name == name then Others(q[1..], name)
    else [q[0]] + Others(q[1..], name)
  }

  /** `searchParams.set(name, value)`: the first pair named `name` takes the new
      value and the later ones are removed; without such a pair, one is appended. */
  function Set(q: seq<Param>, name: string, value: string): (r: seq<Param>)
    ensures ValuesOf(r, name) == [value]
    ensures Others(r, name) == Others(q, name)
    ensures forall n :: n != name ==> ValuesOf(r, n) == ValuesOf(q, n)
    decreases |q|
  {
    if |q| == 0 then [Param(name, value)]
    else if q[0].name == name then
      OthersOfOthers(q[1..], name);
      [Param(name, value)] + Others(q[1..], name)
    else [q[0]] + Set(q[1..], name, value)
  }

  /** Where `set` puts the pair: in place of the first pair named `name`, or at the
      end when there was none. */
  lemma SetPosition(pre: seq<Param>, name: string, value: string, rest: seq<Param>)
    requires ValuesOf(pre, name) == []
    ensures ValuesOf(rest, name) == [] ==> Set(pre + rest, name, value) == pre + rest + [Param(name, value)]
    ensures ValuesOf(rest, name) != [] ==> Set(pre + rest, name, value) == pre + Set(rest, name, value)
  {
    SetSkipsPrefix(pre, name, value, rest);
    if ValuesOf(rest, name) == [] {
      SetAppends(rest, name, value);
    }
  }

  /** Pairs before the first one named `name` are left where they are. */
  lemma {:induction false} SetSkipsPrefix(pre: seq<Param>, name: string, value: string, rest: seq<Param>)
    requires ValuesOf(pre, name) == []
    ensures Set(pre + rest, name, value) == pre + Set(rest, name, value)
    decreases |pre|
  {
    if |pre| == 0 {
      assert pre + rest == rest;
    } else {
      FirstNotNamed(pre, name);
      SetSkipsPrefix(pre[1..], name, value, rest);
      SetSkipsHead(pre, name, value, rest);
    }
  }

  /** The inductive step of `SetSkipsPrefix`: from the shorter prefix to the whole. */
  lemma SetSkipsHead(pre: seq<Param>, name: string, value: string, rest: seq<Param>)
    requires |pre| > 0 && pre[0].name != name
    requires Set(pre[1..] + rest, name, value) == pre[1..] + Set(rest, name, value)
    ensures Set(pre + rest, name, value) == pre + Set(rest, name, value)
  {
    var a, tail := pre[0], pre[1..];
    assert pre == [a] + tail;
    AppendAssoc([a], tail, rest);
    SetSkipsOne(a, tail + rest, name, value);
    AppendAssoc([a], tail, Set(rest, name, value));
  }

  /** Concatenation is associative. */
  lemma AppendAssoc(x: seq<Param>, y: seq<Param>, z: seq<Param>)
    ensures x + (y + z) == (x + y) + z
  {
  }

  /** A query with no pair named `name` starts with a pair of another name. */
  lemma FirstNotNamed(q: seq<Param>, name: string)
    requires |q| > 0 && ValuesOf(q, name) == []
    ensures q[0].name != name && ValuesOf(q[1..], name) == []
  {
  }

  /** A first pair with another name is kept in front. */
  lemma SetSkipsOne(x: Param, q: seq<Param>, name: string, value: string)
    requires x.name != name
    ensures Set([x] + q, name, value) == [x] + Set(q, name, value)
  {
    assert ([x] + q)[1..] == q;
  }

  /** Without a pair named `name`, `set` appends one. */
  lemma {:induction false} SetAppends(q: seq<Param>, name: string, value: string)
    requires ValuesOf(q, name) == []
    ensures Set(q, name, value) == q + [Param(name, value)]
    decreases |q|
  {
    if |q| > 0 {
      SetAppends(q[1..], name, value);
      assert q == [q[0]] + q[1..];
    }
  }

  /** Setting the same pair twice is setting it once. */
  lemma {:induction false} SetIdempotent(q: seq<Param>, name: string, value: string)
    ensures Set(Set(q, name, value), name, value) == Set(q, name, value)
    decreases |q|
  {
    if |q| == 0 {
    } else if q[0].name == name {
      OthersOfOthers(q[1..], name);
    } else {
      SetIdempotent(q[1..], name, value);
    }
  }

  lemma {:induction false} OthersOfOthers(q: seq<Param>, name: string)
    ensures Others(Others(q, name), name) == Others(q, name)
    decreases |q|
  {
    if |q| > 0 {
      OthersOfOthers(q[1..], name);
    }
  }
}
